=== FILE: README.md ===
# GPS transfer engine of EXIF-Clone, modelled in Dafny

EXIF-Clone copies the GPS metadata of one reference photo onto a batch of
target photos. Its engine, `transfer_gps_data` in `src/libs/main.py`, works
in three steps:

1. It loads the source's EXIF tag mapping once. It stops early when the
   source is a HEIC/HEIF file and HEIF support is missing, when the load
   raises, or when the source's "GPS" group is empty.
2. It writes that GPS group into every target in input order. Each target
   sits inside its own `try`, so one bad file cannot end the batch.
3. It returns `success_count`, an ordered `failed` list of `{file, error}`
   entries, and a summary message.

Each write loads the target's mapping and replaces its "GPS" group
wholesale. A HEIC container with no EXIF blob starts from a fresh mapping
of empty groups. The writer then serialises the mapping and writes it back.
`_is_heic` picks the writer by classifying the path's extension, without
regard to case.

The modules are:

- `Paths` (`paths.dfy`): POSIX `os.path.splitext`, ASCII `lower()` and
  `_is_heic`. An independent description of "the extension of a path"
  (`ValidExtAt`) is proved to agree with the `splitext` algorithm.
- `Exif` (`exif.dfy`): the tag mapping, meaning the "0th", "Exif", "GPS"
  and "1st" groups plus the thumbnail. It also holds the empty mapping and
  the GPS merge.
- `Library` (`library.dfy`): the file system as a map from path to bytes.
  It also holds the codec and container calls (`piexif.load` on a path and
  on a blob, `piexif.dump/insert`, `Image.open`/`img.save`) as fields of a
  `Codec` value chosen by the caller. Each call that touches a file gets its
  path as well as its contents, and may fail with an exception text.
  `GpsRoundTrips` names the assumption that the GPS group the codec writes
  is the one it reads back, bare, from a file, or from a saved container;
  `RoundTrips` is the stronger, idealised assumption that the whole mapping
  and the container's blob come back unchanged; `Reliable` describes library
  calls that never fail.
- `Messages` (`messages.dfy`): the fixed error texts, decimal rendering of
  counts, and the summary message.
- `Transfer` (`transfer.dfy`): the writers, the per-target loop, the source
  stage, and the whole call. The call appears twice: as a function
  (`Transfer`) and as a loop written the way the source writes it
  (`TransferGpsData`). The two are proved equal.

`HEIF_SUPPORTED`, which the source sets at import time, is the boolean
parameter `heif`. The model performs no I/O; library and file-system
effects are values passed in.

## Model

| member | source | states |
|---|---|---|
| `Paths.SplitExt` | src/libs/main.py:86 | root and extension concatenate back to the path; the extension is empty or starts at a dot that begins a valid extension |
| `Paths.ExtensionCharacterised` | src/libs/main.py:86 | a position starts a valid extension (last dot of the final component, with a non-dot character before it in that component) if and only if `splitext` splits there |
| `Paths.NamedExtension` | src/libs/main.py:86 | for a stem ending in an ordinary character and a dot-led suffix without dots or separators, the extension is exactly that suffix |
| `Paths.IsHeicIff` | src/libs/main.py:84-87 | a path is HEIC exactly when some valid extension of it lower-cases to `.heic` or `.heif` |
| `Paths.IsHeicCaseInsensitive` | src/libs/main.py:86-87 | lower-casing the whole path never changes the classification |
| `Paths.HeicSuffixIsHeic` | src/libs/main.py:84-87 | any file name ending in `.heic`/`.heif` in any letter case, after an ordinary character, is HEIC |
| `Paths.HeicHasHeicSuffix` | src/libs/main.py:84-87 | conversely, a HEIC path has at least six characters and its last five lower-case to `.heic` or `.heif` |
| `Paths.ClassifierAcceptsHeicNames` | __tests__/unit/test_libs_main.py:56-70 | `photo.heic`, `photo.HEIC`, `photo.heif`, `photo.HEIF` are HEIC |
| `Paths.ClassifierRejectsOtherNames` | __tests__/unit/test_libs_main.py:72-82 | `photo.jpg`, `photo.JPEG`, `photo.png` are not HEIC |
| `Exif.MergeGps` | src/libs/main.py:58-59 | after the merge the GPS group is the source's, and the "0th", "Exif", "1st" groups and the thumbnail are the target's own |
| `Transfer.LoadTags` | src/libs/main.py:42-44 | loading a missing source, native (`piexif.load(source_path)`) or HEIC (`_load_exif_from_heic`, main.py:90-94), raises the not-found error before any library call |
| `Transfer.LoadTagsCharacterised` | src/libs/main.py:90-94 | an existing native source is parsed as a file (main.py:44); a HEIC source fails with the text its opening raised, or else its attached blob is parsed; so the "Error loading source" text is the raising call's own |
| `Transfer.TagsBeforeWrite` | src/libs/main.py:101-106 | a native target starts from its parsed mapping (`piexif.load(target_path)`, main.py:58); a HEIC container with a non-empty EXIF blob starts from that blob's parsed mapping; one with no EXIF blob starts from four empty groups and no thumbnail; a container that fails to open raises that error |
| `Transfer.WriteNative` | src/libs/main.py:58-61 | a missing target raises the not-found error; a successful write requires a readable mapping and changes that target's file only |
| `Transfer.WriteHeic` | src/libs/main.py:97-113 | a missing target raises the not-found error; a successful write requires a readable starting mapping and changes that target's file only |
| `Transfer.WriteTarget` | src/libs/main.py:55-61 | the write matching the classification; only the target's file changes, no file appears or disappears, and an unreadable target is never written |
| `Transfer.WriteNativeCharacterised` | src/libs/main.py:58-61 | the native write succeeds exactly when the target exists and `piexif.load`, `piexif.dump` of the merged mapping and `piexif.insert` all succeed; the target's file then holds what the insert produced; otherwise the error is the text raised by the first of load, dump, insert that failed |
| `Transfer.WriteHeicCharacterised` | src/libs/main.py:97-113 | the HEIC write succeeds exactly when the target exists, its starting mapping can be had, and `piexif.dump` and `img.save` succeed; the target's file then holds the saved container; otherwise the error is the text raised by the first of open, blob load, dump, save that failed |
| `Transfer.ReliableWriteSucceeds` | src/libs/main.py:54-61 | when no library call fails, a target is written exactly when its file exists |
| `Transfer.WrittenTargetCarriesGps` | src/libs/main.py:55-61 | when the codec keeps the GPS group through a round trip, a written target reads back with the source's GPS group |
| `Transfer.WrittenTargetReadsBack` | src/libs/main.py:55-61 | with an idealised codec that reads back the whole mapping, a written target reads back as its starting mapping with the source's GPS group in place of its own |
| `Transfer.BloblessHeicGetsFreshMapping` | src/libs/main.py:101-113 | with an idealised codec that reads back the whole mapping, a HEIC target that had no EXIF blob reads back as empty groups, no thumbnail and the source's GPS group |
| `Transfer.Run` | src/libs/main.py:53-64 | whatever each iteration does, every target is counted exactly once, as a success or as a failure: `success_count + len(failed) == len(targets)` |
| `Transfer.RunFailuresInOrder` | src/libs/main.py:53-64 | the `file` fields of `failed` form a subsequence of the targets: each names a target, in input order |
| `Transfer.RunAppend` | src/libs/main.py:53-64 | looping over `a + b` equals looping over `a`, then over `b` from the files `a` left |
| `Transfer.RunStep` | src/libs/main.py:54-64 | iteration `i` either adds one success and its write, or appends exactly one failure entry naming target `i` with the raised text, and nothing else |
| `Transfer.FailureIsolation` | src/libs/main.py:54-64 | a failing target adds its own entry and nothing else: without it, the success count, the other entries and every file are the same |
| `Transfer.RunTouchesOnlyTargets` | src/libs/main.py:53-64 | the loop changes only targets' files and keeps the set of files |
| `Transfer.ChangedFilesCarryGps` | src/libs/main.py:53-64 | when the codec keeps the GPS group through a round trip, every file the loop changed reads back with the source's GPS group |
| `Transfer.MissingFailures` | src/libs/main.py:63-64 | every entry of the reference failure list names one of the targets, missing from the files, with the not-found error, and there are no more entries than targets |
| `Transfer.ReliableRunFailsOnlyMissing` | src/libs/main.py:53-64 | when no library call fails, `failed` is exactly the missing targets in input order, each with the not-found error, and every other target is a success |
| `Transfer.PrepareSource` | src/libs/main.py:34-50 | the call stops for missing HEIF support exactly when the source is HEIC and support is off, for a load error exactly when the load raises, and for missing GPS exactly when the loaded GPS group is empty; otherwise it goes on with that non-empty group |
| `Transfer.Transfer` | src/libs/main.py:17-81 | each early exit returns zero successes, no failures, its own message and unchanged files; otherwise successes plus failures equal the number of targets, failures are in input order, and the message is the summary of the counts; only targets' files change |
| `Transfer.RunLoop` | src/libs/main.py:53-64 | the loop that counts each success and appends each failure, target by target, ends in exactly the state the fold `Run` describes |
| `Transfer.TransferGpsData` | src/libs/main.py:17-81 | the loop that counts successes and appends failures target by target returns the same result and files as `Transfer` |
| `Transfer.EarlyExitIgnoresTargets` | src/libs/main.py:36-50 | when the source stage stops the call, the result does not depend on the targets, and no file changes |
| `Transfer.MissingSourceReported` | src/libs/main.py:78-79 | a missing source (when the HEIF check does not apply) yields "Error loading source: " followed by the not-found text |
| `Transfer.MessageMatchesCounts` | src/libs/main.py:66-76 | once the source is ready: "Successfully processed" exactly when nothing failed (including no targets); "Processed" exactly when some succeeded and some failed; "Failed to process any files" exactly when none succeeded and some failed |
| `Transfer.TransferWritesSourceGps` | src/libs/main.py:46-64 | when the codec keeps the GPS group through a round trip, every file the call changed is a target and reads back with the source's GPS group |
| `Transfer.ReliableTransfer` | src/libs/main.py:46-76 | when no library call fails and the source has GPS data, the result is the missing targets as failures, every other target as a success, and the summary of those counts |
| `Transfer.OneMissingTarget` | __tests__/integration/test_workflow.py:203-228 | one missing target among existing ones, with no library call failing: it is the only failure, with the not-found error, the others all succeed, and the message is "Processed n/n+1 files (1 failed)" (or "Failed to process any files" when it is the only target) |
| `Messages.Decimal` | src/libs/main.py:69 | a count renders as a non-empty run of digits with no leading zero (zero is "0") |
| `Messages.DecimalRoundTrip` | src/libs/main.py:72-74 | the digits of a rendered count denote that count |
| `Messages.DecimalInjective` | src/libs/main.py:72-74 | distinct counts render differently |
| `Messages.SummaryCases` | src/libs/main.py:66-76 | when successes plus failures equal the total, the three summary forms occur exactly in the all / some / none cases |
| `Messages.AllSucceededReportsCount` | src/libs/main.py:67-70 | the number in "Successfully processed N file(s)" is the success count |
| `Messages.OneFailedSummary` | src/libs/main.py:71-76 | with one failure out of `n + 1` targets the message is "Processed n/n+1 files (1 failed)" when `n > 0` and "Failed to process any files" when `n == 0` |

## Left out

- piexif's binary codec and Pillow/pillow_heif's container handling (`src/libs/main.py:5-14`, `90-113`) are not reimplemented. They are the fields of `Codec`: total functions of the file's path and contents (and of the blob or mapping passed in) that may fail with any exception text, so a failure such as a permission error on one path and not on another file with the same bytes is representable. What else the file system keeps for a path (permissions, ownership) is not a separate part of the model; it is folded into how each call treats that path.
- A library call that fails is modelled as leaving the files unchanged. A partial write by a failing `piexif.insert` or `img.save` is not modelled.
- `HEIF_SUPPORTED` is detected at import time by trying to import pillow_heif. Here it is the parameter `heif`, also passed to `open`/`save`, because registering the opener changes what Pillow can open and save.
- Paths follow POSIX `os.path.splitext`, with `/` as the only separator. Windows paths, with `\` and drive letters, are not modelled.
- `lower()` is modelled on ASCII letters only. Python lower-cases all of Unicode, but only two non-ASCII characters lower-case to ASCII letters: `'İ'` (U+0130, to `'i'` followed by U+0307, two characters) and the Kelvin sign (U+212A, to `'k'`). Neither can produce `.heic`/`.heif`, so the classification is the same.
- The "Interop" group that `piexif.load` also returns is not part of the tag mapping. The merge never touches it.
- Exception texts come from the `Codec` value. The text for a missing file imitates Python's `[Errno 2]` message and puts the path in single quotes, but without `repr`'s escaping of special characters and without its switch to double quotes for a path that contains `'`.
- `piexif.load` is two fields of `Codec`: `loadFile` for a path (`src/libs/main.py:44`, `58`) and `loadBlob` for bytes (`93`, `104`). The library decides by the argument's type, and a file and a blob with the same bytes can parse differently. Both are left abstract.
- Only `Exception` subclasses are caught by the source. Others (`KeyboardInterrupt`) would propagate and are not modelled.
- Transfer.WrittenTargetReadsBack: holds only for a codec satisfying `RoundTrips`. That is an idealisation piexif does not meet: `piexif.dump` adds the Exif and GPS IFD pointer tags (34665, 34853) to the "0th" group, and `piexif.load` returns them. The GPS group itself is unaffected.
- Transfer.BloblessHeicGetsFreshMapping: holds only for a codec satisfying `RoundTrips`, the same idealisation; with piexif the "0th" group reads back holding the pointer tags rather than empty.
- Transfer.WrittenTargetCarriesGps: holds only for a codec satisfying `GpsRoundTrips`, because the libraries' own behaviour is outside the model.
- Transfer.ChangedFilesCarryGps: holds only for a codec satisfying `GpsRoundTrips`, because the libraries' own behaviour is outside the model.
- Transfer.TransferWritesSourceGps: holds only for a codec satisfying `GpsRoundTrips`, because the libraries' own behaviour is outside the model.
- Transfer.ReliableTransfer: describes only library calls that never fail (`Reliable`). With a failing library call the general lemmas still give the counts, the order and the summary, and `WriteNativeCharacterised`/`WriteHeicCharacterised` say which target fails.
- Skipping targets that already have GPS, `.backup` copies, date copying, the progress callback and "skipped" counts are not part of this model. `transfer_gps_data_batch` and `_extract_date_data`, which the tests import, do not appear in `src/libs/main.py`.
- "GPS present" means a non-empty "GPS" group, as the code tests it (`if not gps_data`). No particular latitude/longitude tags are required.
- The summary message follows the code's three cases. There is no skipped-count wording.
- `src/ui/main.py` (window and dialogs), `src/app.py` (Tk probe and process exit) and `__tests__/run_tests.py` (test launcher) are not part of this model.

=== FILE: exif.dfy ===
/** The EXIF tag mapping as the engine sees it: the dictionary `piexif.load`
    returns, with its tag groups and its thumbnail, and the one edit the
    engine makes to it, replacing the GPS group wholesale. */
module Exif {
  import opened Wrappers

  newtype byte = b: int | 0 <= b < 256

  type Bytes = seq<byte>

  /** The value stored under one tag. */
  datatype TagValue =
    | Numbers(ints: seq<int>)
    | Rationals(pairs: seq<(int, int)>)
    | Ascii(text: Bytes)
    | Undefined(raw: Bytes)

  /** One tag group (an IFD): tag number to value. */
  type Group = map<int, TagValue>

  /** The keys "0th", "Exif", "GPS", "1st" and "thumbnail" of the mapping. */
  datatype TagMapping = TagMapping(
    zeroth: Group,
    exif: Group,
    gps: Group,
    first: Group,
    thumbnail: Option<Bytes>)

  /** The mapping a HEIC writer starts from when the container carries no
      EXIF blob: four empty groups and no thumbnail. */
  const EmptyTags: TagMapping := TagMapping(map[], map[], map[], map[], None)

  /** Python truthiness of the "GPS" group: a non-empty dictionary. */
  predicate HasGps(tags: TagMapping) {
    |tags.gps| > 0
  }

  /** `tags["GPS"] = gps`: the GPS group is replaced, nothing else moves. */
  function MergeGps(tags: TagMapping, gps: Group): (r: TagMapping)
    ensures r.gps == gps
    ensures r.zeroth == tags.zeroth && r.exif == tags.exif && r.first == tags.first
    ensures r.thumbnail == tags.thumbnail
  {
    tags.(gps := gps)
  }
}

=== FILE: library.dfy ===
/** The foreign capabilities the engine calls, abstracted: the files it reads
    and rewrites, the EXIF codec (piexif) and the image container library
    (Pillow with the optional HEIF opener). Each library call is a total
    function chosen by the caller of the model, and may fail. */
module Library {
  import opened Wrappers
  import opened Exif
  import opened Paths

  /** The files on disk: path to contents. */
  type FileSystem = map<Path, Bytes>

  /** The library calls the engine makes. The calls that touch a file are
      given its path as well as its contents, so a failure and its text can
      depend on the path and on whatever the file system keeps for it
      (permissions, for one). The boolean passed to `open` and `save` says
      whether the HEIF opener is registered. */
  datatype Codec = Codec(
    /** `piexif.load(path)`: parses the EXIF segment of a whole image file. */
    loadFile: (Path, Bytes) -> Result<TagMapping>,
    /** `piexif.load(blob)`: parses a bare EXIF blob handed over as bytes. */
    loadBlob: Bytes -> Result<TagMapping>,
    /** `piexif.dump`: serialises a tag mapping into an EXIF blob. */
    dump: TagMapping -> Result<Bytes>,
    /** `piexif.insert(blob, file)`: the file's new contents. */
    insert: (Bytes, Path, Bytes) -> Result<Bytes>,
    /** `Image.open(file).info.get("exif", b"")`: the attached blob. */
    open: (bool, Path, Bytes) -> Result<Bytes>,
    /** `img.save(path, exif=blob)` on an opened file: its new contents. */
    save: (bool, Path, Bytes, Bytes) -> Result<Bytes>)

  /** The text of the exception raised on opening a missing file. */
  function NotFoundMessage(p: Path): string {
    "[Errno 2] No such file or directory: '" + p + "'"
  }

  /** Reading a file: its contents, or the not-found error. */
  function ReadFile(fs: FileSystem, p: Path): (r: Result<Bytes>)
    ensures r.Ok? <==> p in fs
    ensures r.Ok? ==> r.value == fs[p]
    ensures r.Err? ==> r.error == NotFoundMessage(p)
  {
    if p in fs then Ok(fs[p]) else Err(NotFoundMessage(p))
  }

  /** What the engine's claims about the GPS group of written files rest on:
      the GPS group of a mapping the codec dumps parses back unchanged,
      whether the blob is read bare, from a file it was inserted into, or
      from a container saved with it and opened again. Nothing is assumed
      about the other groups, nor that the container hands back the blob
      byte for byte. */
  ghost predicate GpsRoundTrips(c: Codec) {
    && (forall tags: TagMapping :: c.dump(tags).Ok? ==>
          c.loadBlob(c.dump(tags).value).Ok? && c.loadBlob(c.dump(tags).value).value.gps == tags.gps)
    && (forall tags: TagMapping, p: Path, file: Bytes ::
          c.dump(tags).Ok? && c.insert(c.dump(tags).value, p, file).Ok? ==>
            c.loadFile(p, c.insert(c.dump(tags).value, p, file).value).Ok? &&
            c.loadFile(p, c.insert(c.dump(tags).value, p, file).value).value.gps == tags.gps)
    && (forall heif: bool, tags: TagMapping, p: Path, file: Bytes ::
          c.dump(tags).Ok? && c.save(heif, p, file, c.dump(tags).value).Ok? ==>
            var saved := c.save(heif, p, file, c.dump(tags).value).value;
            && c.open(heif, p, saved).Ok?
            && c.loadBlob(c.open(heif, p, saved).value).Ok?
            && c.loadBlob(c.open(heif, p, saved).value).value.gps == tags.gps)
  }

  /** An idealised codec that reads back the whole mapping it wrote, every
      group and the thumbnail, and a container that hands back the blob it
      was saved with byte for byte. A real EXIF writer adds the IFD pointer
      tags to the "0th" group, so only the GPS part of this is expected of
      it. */
  ghost predicate RoundTrips(c: Codec) {
    && (forall tags: TagMapping :: c.dump(tags).Ok? ==> c.loadBlob(c.dump(tags).value) == Ok(tags))
    && (forall tags: TagMapping, p: Path, file: Bytes ::
          c.dump(tags).Ok? && c.insert(c.dump(tags).value, p, file).Ok? ==>
            c.loadFile(p, c.insert(c.dump(tags).value, p, file).value) == Ok(tags))
    && (forall heif: bool, p: Path, file: Bytes, blob: Bytes ::
          c.save(heif, p, file, blob).Ok? ==> c.open(heif, p, c.save(heif, p, file, blob).value) == Ok(blob))
  }

  /** The whole-mapping round trip includes the GPS one. */
  lemma RoundTripsKeepGps(c: Codec)
    requires RoundTrips(c)
    ensures GpsRoundTrips(c)
  {
  }

  /** A codec and container library whose every call succeeds, with the
      HEIF opener in the state `heif`. */
  ghost predicate Reliable(c: Codec, heif: bool) {
    && (forall p: Path, b: Bytes :: c.loadFile(p, b).Ok?)
    && (forall b: Bytes :: c.loadBlob(b).Ok?)
    && (forall tags: TagMapping :: c.dump(tags).Ok?)
    && (forall blob: Bytes, p: Path, file: Bytes :: c.insert(blob, p, file).Ok?)
    && (forall p: Path, file: Bytes :: c.open(heif, p, file).Ok?)
    && (forall p: Path, file: Bytes, blob: Bytes :: c.save(heif, p, file, blob).Ok?)
  }
}

=== FILE: messages.dfy ===
/** The result messages of a transfer: the three fixed error texts and the
    summary composed from the counts once every target has been tried. */
module Messages {

  const HeicUnsupportedMessage: string :=
    "Error: HEIC support not available. Install pillow-heif: pip install pillow-heif"

  const NoGpsMessage: string := "Error: Source image has no GPS data!"

  const SourceErrorPrefix: string := "Error loading source: "

  const AllSucceededPrefix: string := "Successfully processed "

  const PartialPrefix: string := "Processed "

  const NothingProcessedMessage: string := "Failed to process any files"

  predicate IsDigit(c: char) {
    '0' <= c <= '9'
  }

  function DigitChar(d: nat): (c: char)
    requires d < 10
    ensures IsDigit(c)
  {
    ('0' as int + d) as char
  }

  /** How an `int` is rendered in an f-string: decimal digits, no leading
      zero except for zero itself. */
  function Decimal(n: nat): (s: string)
    ensures |s| > 0
    ensures forall i :: 0 <= i < |s| ==> IsDigit(s[i])
    ensures s[0] == '0' <==> n == 0
    ensures n == 0 ==> s == "0"
    decreases n
  {
    if n < 10 then [DigitChar(n)] else Decimal(n / 10) + [DigitChar(n % 10)]
  }

  /** The number a string of decimal digits denotes. */
  function DecimalValue(s: string): nat
    requires forall i :: 0 <= i < |s| ==> IsDigit(s[i])
    decreases |s|
  {
    if |s| == 0 then 0
    else
      assert IsDigit(s[|s| - 1]);
      10 * DecimalValue(s[..|s| - 1]) + (s[|s| - 1] as int - '0' as int)
  }

  /** The rendering can be read back: every count in a message is
      recoverable, and distinct counts give distinct texts. */
  lemma {:induction false} DecimalRoundTrip(n: nat)
    ensures DecimalValue(Decimal(n)) == n
    decreases n
  {
    if n >= 10 {
      var s := Decimal(n);
      assert s[..|s| - 1] == Decimal(n / 10);
      DecimalRoundTrip(n / 10);
    }
  }

  lemma DecimalInjective(m: nat, n: nat)
    ensures Decimal(m) == Decimal(n) <==> m == n
  {
    DecimalRoundTrip(m);
    DecimalRoundTrip(n);
  }

  /** The summary of a batch of `total` targets of which `succeeded`
      were written and `failed` were recorded as failures. */
  function Summary(succeeded: nat, total: nat, failed: nat): string {
    if succeeded == total then
      AllSucceededPrefix + Decimal(succeeded) + " file(s)"
    else if succeeded > 0 then
      PartialPrefix + Decimal(succeeded) + "/" + Decimal(total) + " files (" + Decimal(failed) + " failed)"
    else
      NothingProcessedMessage
  }

  predicate StartsWith(s: string, prefix: string) {
    |prefix| <= |s| && s[..|prefix|] == prefix
  }

  /** When every target is either written or failed, the summary tells which
      of the three situations the batch ended in, and each in one way only:
      all written (also for an empty batch), some written, none written. */
  lemma {:induction false} SummaryCases(succeeded: nat, failed: nat)
    ensures StartsWith(Summary(succeeded, succeeded + failed, failed), AllSucceededPrefix) <==> failed == 0
    ensures StartsWith(Summary(succeeded, succeeded + failed, failed), PartialPrefix) <==> succeeded > 0 && failed > 0
    ensures Summary(succeeded, succeeded + failed, failed) == NothingProcessedMessage <==> succeeded == 0 && failed > 0
  {
    var m := Summary(succeeded, succeeded + failed, failed);
    if failed == 0 {
      assert m[..|AllSucceededPrefix|] == AllSucceededPrefix;
      assert m[0] == 'S';
    } else if succeeded > 0 {
      assert m[..|PartialPrefix|] == PartialPrefix;
      assert m[0] == 'P';
    } else {
      assert m[0] == 'F';
    }
  }

  /** The number of written files can be read back from the summary of a
      batch in which every target succeeded. */
  lemma {:induction false} AllSucceededReportsCount(succeeded: nat, text: string)
    requires Summary(succeeded, succeeded, 0) == AllSucceededPrefix + text + " file(s)"
    ensures forall i :: 0 <= i < |text| ==> IsDigit(text[i])
    ensures DecimalValue(text) == succeeded
  {
    var d := Decimal(succeeded);
    assert AllSucceededPrefix + d + " file(s)" == AllSucceededPrefix + text + " file(s)";
    assert |d| == |text|;
    assert d == (AllSucceededPrefix + d + " file(s)")[|AllSucceededPrefix|..|AllSucceededPrefix| + |d|];
    assert text == (AllSucceededPrefix + text + " file(s)")[|AllSucceededPrefix|..|AllSucceededPrefix| + |text|];
    DecimalRoundTrip(succeeded);
  }

  /** The summary of a batch in which exactly one of `n + 1` targets
      failed. */
  lemma OneFailedSummary(n: nat)
    ensures n > 0 ==> Summary(n, n + 1, 1) == PartialPrefix + Decimal(n) + "/" + Decimal(n + 1) + " files (1 failed)"
    ensures n == 0 ==> Summary(n, n + 1, 1) == NothingProcessedMessage
  {
    assert Decimal(1) == "1";
  }
}

=== FILE: paths.dfy ===
/** The format classifier: a path names a HEIC/HEIF container when its
    extension, as POSIX `os.path.splitext` finds it, lower-cases to `.heic`
    or `.heif`. Only the path is looked at, never the file's contents. */
module Paths {

  type Path = string

  /** The directory separator of POSIX paths. */
  const Sep: char := '/'

  /** The extension separator. */
  const ExtSep: char := '.'

  /** The extensions that select the HEIC container path, in lower case. */
  const HeifExtensions: set<string> := {".heic", ".heif"}

  /** ASCII lower-casing of one character. */
  function LowerChar(c: char): char {
    if 'A' <= c <= 'Z' then (c as int + 32) as char else c
  }

  /** `str.lower()` on the ASCII letters; every other character is kept. */
  function Lower(s: string): (r: string)
    ensures |r| == |s|
    ensures forall i :: 0 <= i < |s| ==> r[i] == LowerChar(s[i])
  {
    seq(|s|, i requires 0 <= i < |s| => LowerChar(s[i]))
  }

  /** Index of the last occurrence of `c` in `s`, or -1 when there is none
      (Python's `str.rfind`). */
  function RFind(s: string, c: char): (r: int)
    ensures -1 <= r < |s|
    ensures r >= 0 ==> s[r] == c
    ensures forall j :: r < j < |s| ==> s[j] != c
  {
    if |s| == 0 then -1
    else if s[|s| - 1] == c then |s| - 1
    else RFind(s[..|s| - 1], c)
  }

  /** The leading-dot scan of `splitext`: does `p[lo..hi]` hold a character
      other than a dot? */
  function NonDotBetween(p: string, lo: nat, hi: nat): (b: bool)
    requires hi <= |p|
    ensures b <==> exists i :: lo <= i < hi && p[i] != ExtSep
    decreases hi - lo
  {
    if lo >= hi then false
    else if p[lo] != ExtSep then true
    else NonDotBetween(p, lo + 1, hi)
  }

  /** Independent description of an extension: `p[k..]` is the extension of
      `p` when it starts with the last dot of the final path component and
      that component has a character other than a dot in front of it. */
  ghost predicate ValidExtAt(p: string, k: int) {
    && 0 <= k < |p|
    && p[k] == ExtSep
    && (forall j :: k < j < |p| ==> p[j] != ExtSep && p[j] != Sep)
    && (exists j :: 0 <= j < k && p[j] != ExtSep && p[j] != Sep && NoSepBetween(p, j, k))
  }

  ghost predicate NoSepBetween(p: string, j: int, k: int)
    requires 0 <= j <= k <= |p|
  {
    forall m :: j < m < k ==> p[m] != Sep
  }

  /** `os.path.splitext` on a POSIX path: the root and the extension, the
      extension being empty or starting at a valid extension dot. */
  function SplitExt(p: Path): (r: (Path, string))
    ensures r.0 + r.1 == p
    ensures r.1 == [] || ValidExtAt(p, |r.0|)
  {
    var sepIndex := RFind(p, Sep);
    var dotIndex := RFind(p, ExtSep);
    if dotIndex > sepIndex && NonDotBetween(p, sepIndex + 1, dotIndex) then
      assert ValidExtAt(p, dotIndex) by {
        var i :| sepIndex + 1 <= i < dotIndex && p[i] != ExtSep;
        assert p[i] != Sep;
        assert NoSepBetween(p, i, dotIndex);
      }
      (p[..dotIndex], p[dotIndex..])
    else
      (p, [])
  }

  function Extension(p: Path): string {
    SplitExt(p).1
  }

  /** `_is_heic`: is the lower-cased extension `.heic` or `.heif`? */
  predicate IsHeic(p: Path) {
    Lower(Extension(p)) in HeifExtensions
  }

  /** At most one position can start an extension, and `SplitExt` finds it. */
  lemma {:induction false} SplitExtFindsValidExt(p: Path, k: int)
    requires ValidExtAt(p, k)
    ensures SplitExt(p) == (p[..k], p[k..])
  {
    var sepIndex := RFind(p, Sep);
    var dotIndex := RFind(p, ExtSep);
    assert dotIndex == k;
    var j :| 0 <= j < k && p[j] != ExtSep && p[j] != Sep && NoSepBetween(p, j, k);
    assert sepIndex < j;
    assert NonDotBetween(p, sepIndex + 1, dotIndex);
  }

  /** The extension `SplitExt` returns is non-empty exactly when some
      position is a valid extension start, and then it starts there. */
  lemma ExtensionCharacterised(p: Path, k: int)
    ensures ValidExtAt(p, k) <==> (Extension(p) != [] && |SplitExt(p).0| == k)
  {
    if ValidExtAt(p, k) {
      SplitExtFindsValidExt(p, k);
    }
  }

  /** `_is_heic` in terms of the independent description: some valid
      extension of `p` lower-cases to `.heic` or `.heif`. */
  lemma {:induction false} IsHeicIff(p: Path)
    ensures IsHeic(p) <==> exists k :: ValidExtAt(p, k) && Lower(p[k..]) in HeifExtensions
  {
    if IsHeic(p) {
      assert Lower([]) == [];
      var k := |SplitExt(p).0|;
      assert ValidExtAt(p, k) && Lower(p[k..]) in HeifExtensions;
    }
    if exists k :: ValidExtAt(p, k) && Lower(p[k..]) in HeifExtensions {
      var k :| ValidExtAt(p, k) && Lower(p[k..]) in HeifExtensions;
      SplitExtFindsValidExt(p, k);
    }
  }

  lemma LowerCharKeepsSeparators(c: char)
    ensures LowerChar(c) == Sep <==> c == Sep
    ensures LowerChar(c) == ExtSep <==> c == ExtSep
    ensures LowerChar(LowerChar(c)) == LowerChar(c)
  {
  }

  lemma {:induction false} ValidExtLower(p: Path, k: int)
    ensures ValidExtAt(Lower(p), k) <==> ValidExtAt(p, k)
  {
    var q := Lower(p);
    forall i | 0 <= i < |p|
      ensures q[i] == Sep <==> p[i] == Sep
      ensures q[i] == ExtSep <==> p[i] == ExtSep
    {
      LowerCharKeepsSeparators(p[i]);
    }
    if ValidExtAt(p, k) {
      var j :| 0 <= j < k && p[j] != ExtSep && p[j] != Sep && NoSepBetween(p, j, k);
      assert NoSepBetween(q, j, k);
    }
    if ValidExtAt(q, k) {
      var j :| 0 <= j < k && q[j] != ExtSep && q[j] != Sep && NoSepBetween(q, j, k);
      assert NoSepBetween(p, j, k);
    }
  }

  lemma LowerIdempotentSuffix(p: Path, k: int)
    requires 0 <= k <= |p|
    ensures Lower(Lower(p)[k..]) == Lower(p[k..])
  {
    forall i | 0 <= i < |p| - k
      ensures Lower(Lower(p)[k..])[i] == Lower(p[k..])[i]
    {
      LowerCharKeepsSeparators(p[k + i]);
    }
  }

  /** The classifier is case-insensitive: lower-casing the whole path first
      changes nothing. */
  lemma {:induction false} IsHeicCaseInsensitive(p: Path)
    ensures IsHeic(Lower(p)) <==> IsHeic(p)
  {
    IsHeicIff(p);
    IsHeicIff(Lower(p));
    if IsHeic(p) {
      var k :| ValidExtAt(p, k) && Lower(p[k..]) in HeifExtensions;
      ValidExtLower(p, k);
      LowerIdempotentSuffix(p, k);
      assert ValidExtAt(Lower(p), k) && Lower(Lower(p)[k..]) in HeifExtensions;
    }
    if IsHeic(Lower(p)) {
      var k :| ValidExtAt(Lower(p), k) && Lower(Lower(p)[k..]) in HeifExtensions;
      ValidExtLower(p, k);
      LowerIdempotentSuffix(p, k);
      assert ValidExtAt(p, k) && Lower(p[k..]) in HeifExtensions;
    }
  }

  /** A file name ending in `.heic` or `.heif` in any letter case, after a
      stem whose last character is neither a dot nor a separator, is HEIC. */
  lemma {:induction false} HeicSuffixIsHeic(stem: string, ext: string)
    requires |stem| > 0 && stem[|stem| - 1] != ExtSep && stem[|stem| - 1] != Sep
    requires |ext| > 0 && ext[0] == ExtSep && Lower(ext) in HeifExtensions
    ensures IsHeic(stem + ext)
  {
    var p := stem + ext;
    var k := |stem|;
    assert Lower(ext) == ".heic" || Lower(ext) == ".heif";
    assert |ext| == 5;
    forall j | k < j < |p|
      ensures p[j] != ExtSep && p[j] != Sep
    {
      assert Lower(ext)[j - k] != ExtSep && Lower(ext)[j - k] != Sep;
      LowerCharKeepsSeparators(ext[j - k]);
    }
    assert NoSepBetween(p, k - 1, k);
    assert ValidExtAt(p, k);
    assert p[k..] == ext;
    IsHeicIff(p);
  }

  /** Conversely, a HEIC path ends in a five-character `.heic`/`.heif`
      suffix (any case) preceded by at least one more character. */
  lemma {:induction false} HeicHasHeicSuffix(p: Path)
    requires IsHeic(p)
    ensures |p| >= 6 && Lower(p[|p| - 5..]) in HeifExtensions
  {
    IsHeicIff(p);
    var k :| ValidExtAt(p, k) && Lower(p[k..]) in HeifExtensions;
    assert |Lower(p[k..])| == 5;
    assert |p| - 5 == k;
    var j :| 0 <= j < k && p[j] != ExtSep && p[j] != Sep && NoSepBetween(p, j, k);
  }

  /** The classifier accepts the HEIC file names the unit tests use. */
  lemma ClassifierAcceptsHeicNames(ext: string)
    requires ext in {".heic", ".HEIC", ".heif", ".HEIF"}
    ensures IsHeic("photo" + ext)
  {
    if ext == ".heic" {
      assert Lower(ext) == ".heic";
    } else if ext == ".HEIC" {
      assert Lower(ext) == ".heic";
    } else if ext == ".heif" {
      assert Lower(ext) == ".heif";
    } else {
      assert Lower(ext) == ".heif";
    }
    HeicSuffixIsHeic("photo", ext);
  }

  /** The extension of `stem + ext` is `ext` when `ext` is a dot followed by
      no dot or separator and the stem ends in an ordinary character. */
  lemma {:induction false} NamedExtension(stem: string, ext: string)
    requires |stem| > 0 && stem[|stem| - 1] != ExtSep && stem[|stem| - 1] != Sep
    requires |ext| > 0 && ext[0] == ExtSep
    requires forall i :: 0 < i < |ext| ==> ext[i] != ExtSep && ext[i] != Sep
    ensures Extension(stem + ext) == ext
  {
    var p := stem + ext;
    var k := |stem|;
    assert forall j :: k < j < |p| ==> p[j] == ext[j - k];
    assert NoSepBetween(p, k - 1, k);
    assert ValidExtAt(p, k);
    SplitExtFindsValidExt(p, k);
    assert p[k..] == ext;
  }

  /** The classifier rejects the other file names the unit tests use. */
  lemma ClassifierRejectsOtherNames(ext: string)
    requires ext in {".jpg", ".JPEG", ".png"}
    ensures !IsHeic("photo" + ext)
  {
    NamedExtension("photo", ext);
    if ext == ".JPEG" {
      assert Lower(ext)[1] == 'j';
    }
  }
}

=== FILE: transfer.dfy ===
/** The batch GPS transfer engine (`transfer_gps_data`): load the source's
    tag mapping once, stop early when HEIF support is missing, the load
    raises or the source has no GPS group, otherwise write the source's GPS
    group into every target in order, each target in its own error boundary,
    and summarise the counts. */
module Transfer {
  import opened Wrappers
  import opened Exif
  import opened Paths
  import opened Library
  import opened Messages

  /** One entry of the `failed` list: `{"file": path, "error": str(e)}`. */
  datatype Failure = Failure(file: Path, error: string)

  /** The returned dictionary: `success_count`, `failed`, `message`. */
  datatype BatchResult = BatchResult(successCount: nat, failed: seq<Failure>, message: string)

  /** The result together with the files as the call leaves them. */
  datatype Outcome = Outcome(result: BatchResult, files: FileSystem)

  /** The counters of the target loop and the files so far. */
  datatype Progress = Progress(successCount: nat, failed: seq<Failure>, files: FileSystem)

  /** How loading the source ended. */
  datatype SourceStage =
    | HeifUnsupported
    | LoadFailed(error: string)
    | NoGps
    | Ready(gps: Group)

  // ---------------------------------------------------------------------
  // Reading and writing one file's tag mapping
  // ---------------------------------------------------------------------

  /** The source-loading read: `_load_exif_from_heic` for a HEIC path (the
      attached blob is parsed even when it is empty), `piexif.load` on the
      path otherwise. */
  function LoadTags(c: Codec, heif: bool, fs: FileSystem, p: Path): (r: Result<TagMapping>)
    ensures p !in fs ==> r == Err(NotFoundMessage(p))
  {
    var file :- ReadFile(fs, p);
    if IsHeic(p) then
      var blob :- c.open(heif, p, file);
      c.loadBlob(blob)
    else
      c.loadFile(p, file)
  }

  /** Reading an existing source: a native file is parsed as it is; a HEIC
      container fails with the text its opening raised, or else its attached
      blob is parsed. Any failure carries the raising call's own text. */
  lemma LoadTagsCharacterised(c: Codec, heif: bool, fs: FileSystem, p: Path)
    requires p in fs
    ensures !IsHeic(p) ==> LoadTags(c, heif, fs, p) == c.loadFile(p, fs[p])
    ensures IsHeic(p) && c.open(heif, p, fs[p]).Err? ==> LoadTags(c, heif, fs, p) == Err(c.open(heif, p, fs[p]).error)
    ensures IsHeic(p) && c.open(heif, p, fs[p]).Ok? ==> LoadTags(c, heif, fs, p) == c.loadBlob(c.open(heif, p, fs[p]).value)
  {
  }

  /** The mapping a writer starts from: the target's parsed mapping, or, for
      a HEIC container that carries no EXIF blob, the empty mapping. */
  function TagsBeforeWrite(c: Codec, heif: bool, t: Path, file: Bytes, isHeic: bool): (r: Result<TagMapping>)
    ensures !isHeic ==> r == c.loadFile(t, file)
    ensures isHeic && c.open(heif, t, file) == Ok([]) ==> r == Ok(EmptyTags)
    ensures isHeic && c.open(heif, t, file).Ok? && |c.open(heif, t, file).value| > 0 ==>
      r == c.loadBlob(c.open(heif, t, file).value)
    ensures isHeic && c.open(heif, t, file).Err? ==> r == Err(c.open(heif, t, file).error)
  {
    if isHeic then
      var blob :- c.open(heif, t, file);
      if |blob| > 0 then c.loadBlob(blob) else Ok(EmptyTags)
    else
      c.loadFile(t, file)
  }

  /** The native path: load the target, replace its GPS group, dump it and
      insert the blob into the file. */
  function WriteNative(c: Codec, fs: FileSystem, t: Path, gps: Group): (r: Result<FileSystem>)
    ensures t !in fs ==> r == Err(NotFoundMessage(t))
    ensures r.Ok? ==> t in fs && TagsBeforeWrite(c, false, t, fs[t], false).Ok?
    ensures r.Ok? ==> t in r.value && r.value == fs[t := r.value[t]]
  {
    var file :- ReadFile(fs, t);
    var tags :- TagsBeforeWrite(c, false, t, file, false);
    var blob :- c.dump(MergeGps(tags, gps));
    var file' :- c.insert(blob, t, file);
    Ok(fs[t := file'])
  }

  /** `_write_exif_to_heic`: open the container, start from its blob's
      mapping or the empty one, replace the GPS group, dump it and save the
      container with the new blob. */
  function WriteHeic(c: Codec, heif: bool, fs: FileSystem, t: Path, gps: Group): (r: Result<FileSystem>)
    ensures t !in fs ==> r == Err(NotFoundMessage(t))
    ensures r.Ok? ==> t in fs && TagsBeforeWrite(c, heif, t, fs[t], true).Ok?
    ensures r.Ok? ==> t in r.value && r.value == fs[t := r.value[t]]
  {
    var file :- ReadFile(fs, t);
    var tags :- TagsBeforeWrite(c, heif, t, file, true);
    var blob :- c.dump(MergeGps(tags, gps));
    var file' :- c.save(heif, t, file, blob);
    Ok(fs[t := file'])
  }

  /** The body of the per-target `try`: the write that matches the target's
      classification. Only the target's own file can change, and a target
      whose current tag mapping cannot be read is never written. */
  function WriteTarget(c: Codec, heif: bool, gps: Group, fs: FileSystem, t: Path): (r: Result<FileSystem>)
    ensures t !in fs ==> r == Err(NotFoundMessage(t))
    ensures r.Ok? ==> t in fs && TagsBeforeWrite(c, heif, t, fs[t], IsHeic(t)).Ok?
    ensures r.Ok? ==> r.value.Keys == fs.Keys
    ensures r.Ok? ==> forall p :: p in fs && p != t ==> r.value[p] == fs[p]
  {
    if IsHeic(t) then WriteHeic(c, heif, fs, t, gps) else WriteNative(c, fs, t, gps)
  }

  /** The native write succeeds exactly when the target exists and its
      load, the dump of the merged mapping and the insert all succeed; the
      target's file then holds what the insert produced. Otherwise it fails
      with the text of the first call that raised. */
  lemma WriteNativeCharacterised(c: Codec, fs: FileSystem, t: Path, gps: Group)
    ensures WriteNative(c, fs, t, gps).Ok? <==>
      && t in fs
      && c.loadFile(t, fs[t]).Ok?
      && c.dump(MergeGps(c.loadFile(t, fs[t]).value, gps)).Ok?
      && c.insert(c.dump(MergeGps(c.loadFile(t, fs[t]).value, gps)).value, t, fs[t]).Ok?
    ensures WriteNative(c, fs, t, gps).Ok? ==>
      WriteNative(c, fs, t, gps).value ==
        fs[t := c.insert(c.dump(MergeGps(c.loadFile(t, fs[t]).value, gps)).value, t, fs[t]).value]
    ensures t in fs && c.loadFile(t, fs[t]).Err? ==>
      WriteNative(c, fs, t, gps) == Err(c.loadFile(t, fs[t]).error)
    ensures t in fs && c.loadFile(t, fs[t]).Ok? && c.dump(MergeGps(c.loadFile(t, fs[t]).value, gps)).Err? ==>
      WriteNative(c, fs, t, gps) == Err(c.dump(MergeGps(c.loadFile(t, fs[t]).value, gps)).error)
    ensures t in fs && c.loadFile(t, fs[t]).Ok? && c.dump(MergeGps(c.loadFile(t, fs[t]).value, gps)).Ok? &&
            c.insert(c.dump(MergeGps(c.loadFile(t, fs[t]).value, gps)).value, t, fs[t]).Err? ==>
      WriteNative(c, fs, t, gps) == Err(c.insert(c.dump(MergeGps(c.loadFile(t, fs[t]).value, gps)).value, t, fs[t]).error)
  {
  }

  /** The HEIC write succeeds exactly when the target exists, its starting
      mapping can be had, and the dump and the save succeed; the target's
      file then holds the saved container. Otherwise it fails with the text
      of the first call that raised: the open, the blob's load, the dump or
      the save. */
  lemma WriteHeicCharacterised(c: Codec, heif: bool, fs: FileSystem, t: Path, gps: Group)
    ensures WriteHeic(c, heif, fs, t, gps).Ok? <==>
      && t in fs
      && TagsBeforeWrite(c, heif, t, fs[t], true).Ok?
      && c.dump(MergeGps(TagsBeforeWrite(c, heif, t, fs[t], true).value, gps)).Ok?
      && c.save(heif, t, fs[t], c.dump(MergeGps(TagsBeforeWrite(c, heif, t, fs[t], true).value, gps)).value).Ok?
    ensures WriteHeic(c, heif, fs, t, gps).Ok? ==>
      WriteHeic(c, heif, fs, t, gps).value ==
        fs[t := c.save(heif, t, fs[t], c.dump(MergeGps(TagsBeforeWrite(c, heif, t, fs[t], true).value, gps)).value).value]
    ensures t in fs && c.open(heif, t, fs[t]).Err? ==>
      WriteHeic(c, heif, fs, t, gps) == Err(c.open(heif, t, fs[t]).error)
    ensures t in fs && c.open(heif, t, fs[t]).Ok? && |c.open(heif, t, fs[t]).value| > 0 &&
            c.loadBlob(c.open(heif, t, fs[t]).value).Err? ==>
      WriteHeic(c, heif, fs, t, gps) == Err(c.loadBlob(c.open(heif, t, fs[t]).value).error)
    ensures t in fs && TagsBeforeWrite(c, heif, t, fs[t], true).Ok? &&
            c.dump(MergeGps(TagsBeforeWrite(c, heif, t, fs[t], true).value, gps)).Err? ==>
      WriteHeic(c, heif, fs, t, gps) == Err(c.dump(MergeGps(TagsBeforeWrite(c, heif, t, fs[t], true).value, gps)).error)
    ensures t in fs && TagsBeforeWrite(c, heif, t, fs[t], true).Ok? &&
            c.dump(MergeGps(TagsBeforeWrite(c, heif, t, fs[t], true).value, gps)).Ok? &&
            c.save(heif, t, fs[t], c.dump(MergeGps(TagsBeforeWrite(c, heif, t, fs[t], true).value, gps)).value).Err? ==>
      WriteHeic(c, heif, fs, t, gps) ==
        Err(c.save(heif, t, fs[t], c.dump(MergeGps(TagsBeforeWrite(c, heif, t, fs[t], true).value, gps)).value).error)
  {
  }

  /** With library calls that never fail, a target is written exactly when
      its file exists. */
  lemma ReliableWriteSucceeds(c: Codec, heif: bool, gps: Group, fs: FileSystem, t: Path)
    requires Reliable(c, heif)
    ensures WriteTarget(c, heif, gps, fs, t).Ok? <==> t in fs
  {
    if t in fs {
      if IsHeic(t) {
        WriteHeicCharacterised(c, heif, fs, t, gps);
      } else {
        WriteNativeCharacterised(c, fs, t, gps);
      }
    }
  }

  /** A written target reads back, through the same path the engine loads a
      source with, with the source's GPS group; only the GPS part of the
      codec's round trip is needed. */
  lemma WrittenTargetCarriesGps(c: Codec, heif: bool, gps: Group, fs: FileSystem, t: Path)
    requires GpsRoundTrips(c)
    requires WriteTarget(c, heif, gps, fs, t).Ok?
    ensures LoadTags(c, heif, WriteTarget(c, heif, gps, fs, t).value, t).Ok?
    ensures LoadTags(c, heif, WriteTarget(c, heif, gps, fs, t).value, t).value.gps == gps
  {
    var before := TagsBeforeWrite(c, heif, t, fs[t], IsHeic(t)).value;
    assert c.dump(MergeGps(before, gps)).Ok?;
  }

  /** With an idealised codec that reads back the whole mapping it wrote, a
      written target reads back, through the same path the engine loads a
      source with, as the mapping it started from with the source's GPS
      group in place of its own; the other groups and the thumbnail are
      those it had. */
  lemma WrittenTargetReadsBack(c: Codec, heif: bool, gps: Group, fs: FileSystem, t: Path)
    requires RoundTrips(c)
    requires WriteTarget(c, heif, gps, fs, t).Ok?
    ensures var before := TagsBeforeWrite(c, heif, t, fs[t], IsHeic(t)).value;
            LoadTags(c, heif, WriteTarget(c, heif, gps, fs, t).value, t) == Ok(MergeGps(before, gps))
  {
  }

  /** A HEIC target without an EXIF blob comes out of a write holding the
      source's GPS group and nothing else: empty groups and no thumbnail. */
  lemma BloblessHeicGetsFreshMapping(c: Codec, heif: bool, gps: Group, fs: FileSystem, t: Path)
    requires RoundTrips(c)
    requires IsHeic(t) && t in fs && c.open(heif, t, fs[t]) == Ok([])
    requires WriteTarget(c, heif, gps, fs, t).Ok?
    ensures LoadTags(c, heif, WriteTarget(c, heif, gps, fs, t).value, t) == Ok(TagMapping(map[], map[], gps, map[], None))
  {
    WrittenTargetReadsBack(c, heif, gps, fs, t);
  }

  // ---------------------------------------------------------------------
  // The target loop
  // ---------------------------------------------------------------------

  function FilesOf(failed: seq<Failure>): (r: seq<Path>)
    ensures |r| == |failed|
    ensures forall i :: 0 <= i < |failed| ==> r[i] == failed[i].file
  {
    seq(|failed|, i requires 0 <= i < |failed| => failed[i].file)
  }

  /** `xs` is `ys` with some elements left out, the rest in the same order. */
  ghost predicate IsSubsequence<T>(xs: seq<T>, ys: seq<T>)
    decreases |ys|
  {
    if |xs| == 0 then true
    else if |ys| == 0 then false
    else (xs[0] == ys[0] && IsSubsequence(xs[1..], ys[1..])) || IsSubsequence(xs, ys[1..])
  }

  lemma SubsequenceSkip<T>(xs: seq<T>, ys: seq<T>)
    requires |ys| > 0 && IsSubsequence(xs, ys[1..])
    ensures IsSubsequence(xs, ys)
  {
  }

  lemma SubsequenceKeep<T>(xs: seq<T>, ys: seq<T>)
    requires |xs| > 0 && |ys| > 0 && xs[0] == ys[0] && IsSubsequence(xs[1..], ys[1..])
    ensures IsSubsequence(xs, ys)
  {
  }

  /** The body of one iteration's `try`: from the files as they are to the
      files after the target is written, or the text of what it raised. */
  type Step = (FileSystem, Path) -> Result<FileSystem>

  /** The step `transfer_gps_data` takes for each target. */
  function WriteStep(c: Codec, heif: bool, gps: Group): Step {
    (fs: FileSystem, t: Path) => WriteTarget(c, heif, gps, fs, t)
  }

  /** The `for` loop over the targets, whatever each iteration's body does:
      every target is either counted as a success or recorded, in input
      order, as a failure naming it. */
  function Run(step: Step, fs: FileSystem, targets: seq<Path>): (r: Progress)
    ensures r.successCount + |r.failed| == |targets|
    decreases |targets|
  {
    if |targets| == 0 then Progress(0, [], fs)
    else
      var t := targets[0];
      match step(fs, t)
      case Ok(fs') =>
        var rest := Run(step, fs', targets[1..]);
        Progress(rest.successCount + 1, rest.failed, rest.files)
      case Err(e) =>
        var rest := Run(step, fs, targets[1..]);
        Progress(rest.successCount, [Failure(t, e)] + rest.failed, rest.files)
  }

  /** The failure entries name failing targets in input order. */
  lemma {:induction false} RunFailuresInOrder(step: Step, fs: FileSystem, targets: seq<Path>)
    ensures IsSubsequence(FilesOf(Run(step, fs, targets).failed), targets)
    decreases |targets|
  {
    if |targets| > 0 {
      var t := targets[0];
      match step(fs, t)
      case Ok(fs') =>
        var rest := Run(step, fs', targets[1..]);
        RunFailuresInOrder(step, fs', targets[1..]);
        SubsequenceSkip(FilesOf(rest.failed), targets);
      case Err(e) =>
        var rest := Run(step, fs, targets[1..]);
        RunFailuresInOrder(step, fs, targets[1..]);
        assert FilesOf([Failure(t, e)] + rest.failed)[1..] == FilesOf(rest.failed);
        SubsequenceKeep(FilesOf([Failure(t, e)] + rest.failed), targets);
    }
  }

  /** Running two stretches of targets one after the other. */
  function Then(first: Progress, second: Progress): Progress {
    Progress(first.successCount + second.successCount, first.failed + second.failed, second.files)
  }

  /** The loop over `a + b` is the loop over `a` followed by the loop over
      `b` from the files `a` left behind. */
  lemma {:induction false} RunAppend(step: Step, fs: FileSystem, a: seq<Path>, b: seq<Path>)
    ensures Run(step, fs, a + b) == Then(Run(step, fs, a), Run(step, Run(step, fs, a).files, b))
    decreases |a|
  {
    if |a| == 0 {
      assert a + b == b;
    } else {
      assert (a + b)[0] == a[0];
      assert (a + b)[1..] == a[1..] + b;
      match step(fs, a[0])
      case Ok(fs') =>
        RunAppend(step, fs', a[1..], b);
      case Err(e) =>
        RunAppend(step, fs, a[1..], b);
    }
  }

  /** One iteration of the loop, as the source performs it: after the
      targets before `i`, target `i` either adds one success and its write,
      or adds exactly one failure entry naming it, and nothing else. */
  lemma RunStep(step: Step, fs: FileSystem, targets: seq<Path>, i: nat)
    requires i < |targets|
    ensures var before := Run(step, fs, targets[..i]);
            var after := Run(step, fs, targets[..i + 1]);
            match step(before.files, targets[i])
            case Ok(fs') => after == Progress(before.successCount + 1, before.failed, fs')
            case Err(e) => after == Progress(before.successCount, before.failed + [Failure(targets[i], e)], before.files)
  {
    assert targets[..i + 1] == targets[..i] + [targets[i]];
    RunAppend(step, fs, targets[..i], [targets[i]]);
    assert [targets[i]][1..] == [];
  }

  /** Failure isolation: a target whose step fails contributes its failure
      entry and nothing else. Removing it leaves the success count, the
      other failure entries and every file exactly as they were. */
  lemma FailureIsolation(step: Step, fs: FileSystem, a: seq<Path>, t: Path, b: seq<Path>)
    requires step(Run(step, fs, a).files, t).Err?
    ensures var e := step(Run(step, fs, a).files, t).error;
            var with := Run(step, fs, a + [t] + b);
            var without := Run(step, fs, a + b);
            && with.successCount == without.successCount
            && with.files == without.files
            && with.failed == Run(step, fs, a).failed + [Failure(t, e)] + Run(step, Run(step, fs, a).files, b).failed
            && without.failed == Run(step, fs, a).failed + Run(step, Run(step, fs, a).files, b).failed
  {
    RunAroundFailing(step, fs, a, t, b);
    RunAppend(step, fs, a, b);
  }

  /** The loop over `a + [t] + b` with `t` failing: the loop over `a`, the
      failure entry of `t`, then the loop over `b` from the files `a` left. */
  lemma RunAroundFailing(step: Step, fs: FileSystem, a: seq<Path>, t: Path, b: seq<Path>)
    requires step(Run(step, fs, a).files, t).Err?
    ensures var first := Run(step, fs, a);
            var rest := Run(step, first.files, b);
            Run(step, fs, a + [t] + b) ==
              Progress(first.successCount + rest.successCount,
                       first.failed + [Failure(t, step(first.files, t).error)] + rest.failed,
                       rest.files)
  {
    var first := Run(step, fs, a);
    assert a + [t] + b == a + ([t] + b);
    RunAppend(step, fs, a, [t] + b);
    RunFailingHead(step, first.files, t, b);
    ConcatAssoc(first.failed, [Failure(t, step(first.files, t).error)], Run(step, first.files, b).failed);
  }

  lemma ConcatAssoc<T>(x: seq<T>, y: seq<T>, z: seq<T>)
    ensures x + (y + z) == x + y + z
  {
  }

  /** A failing first target: the loop over the rest, with its failure
      entry in front. */
  lemma RunFailingHead(step: Step, fs: FileSystem, t: Path, b: seq<Path>)
    requires step(fs, t).Err?
    ensures Run(step, fs, [t] + b) ==
      Progress(Run(step, fs, b).successCount, [Failure(t, step(fs, t).error)] + Run(step, fs, b).failed, Run(step, fs, b).files)
  {
    assert ([t] + b)[0] == t && ([t] + b)[1..] == b;
  }

  /** With the engine's own step, only targets' files change, and no file
      appears or disappears. */
  lemma {:induction false} RunTouchesOnlyTargets(c: Codec, heif: bool, gps: Group, fs: FileSystem, targets: seq<Path>)
    ensures Run(WriteStep(c, heif, gps), fs, targets).files.Keys == fs.Keys
    ensures forall p :: p in fs && p !in targets ==> Run(WriteStep(c, heif, gps), fs, targets).files[p] == fs[p]
    decreases |targets|
  {
    if |targets| > 0 {
      var t := targets[0];
      assert WriteStep(c, heif, gps)(fs, t) == WriteTarget(c, heif, gps, fs, t);
      match WriteTarget(c, heif, gps, fs, t)
      case Ok(fs') =>
        RunTouchesOnlyTargets(c, heif, gps, fs', targets[1..]);
      case Err(_) =>
        RunTouchesOnlyTargets(c, heif, gps, fs, targets[1..]);
    }
  }

  /** When the codec keeps the GPS group through a round trip, every file
      the loop changed reads back with the source's GPS group. */
  lemma {:induction false} ChangedFilesCarryGps(c: Codec, heif: bool, gps: Group, fs: FileSystem, targets: seq<Path>, p: Path)
    requires GpsRoundTrips(c)
    requires p in fs && p in Run(WriteStep(c, heif, gps), fs, targets).files
    requires Run(WriteStep(c, heif, gps), fs, targets).files[p] != fs[p]
    ensures LoadTags(c, heif, Run(WriteStep(c, heif, gps), fs, targets).files, p).Ok?
    ensures LoadTags(c, heif, Run(WriteStep(c, heif, gps), fs, targets).files, p).value.gps == gps
    decreases |targets|
  {
    var final := Run(WriteStep(c, heif, gps), fs, targets).files;
    assert |targets| > 0;
    var t := targets[0];
    assert WriteStep(c, heif, gps)(fs, t) == WriteTarget(c, heif, gps, fs, t);
    match WriteTarget(c, heif, gps, fs, t)
    case Ok(fs') =>
      RunTouchesOnlyTargets(c, heif, gps, fs', targets[1..]);
      if final[p] != fs'[p] {
        ChangedFilesCarryGps(c, heif, gps, fs', targets[1..], p);
      } else {
        assert p == t;
        WrittenTargetCarriesGps(c, heif, gps, fs, t);
        SameFileSameTags(c, heif, fs', final, p);
      }
    case Err(_) =>
      ChangedFilesCarryGps(c, heif, gps, fs, targets[1..], p);
  }

  /** Loading a path looks at that path's file only. */
  lemma SameFileSameTags(c: Codec, heif: bool, fs: FileSystem, fs': FileSystem, p: Path)
    requires p in fs && p in fs' && fs[p] == fs'[p]
    ensures LoadTags(c, heif, fs, p) == LoadTags(c, heif, fs', p)
  {
  }

  /** Reference definition of the failures a batch can only have when every
      library call succeeds: one not-found entry per target whose file is
      missing, in input order. */
  function MissingFailures(present: set<Path>, targets: seq<Path>): (r: seq<Failure>)
    ensures |r| <= |targets|
    ensures forall i :: 0 <= i < |r| ==> r[i].file in targets
    ensures forall i :: 0 <= i < |r| ==> r[i].file !in present && r[i].error == NotFoundMessage(r[i].file)
  {
    if |targets| == 0 then []
    else if targets[0] in present then MissingFailures(present, targets[1..])
    else [Failure(targets[0], NotFoundMessage(targets[0]))] + MissingFailures(present, targets[1..])
  }

  lemma {:induction false} MissingFailuresAppend(present: set<Path>, a: seq<Path>, b: seq<Path>)
    ensures MissingFailures(present, a + b) == MissingFailures(present, a) + MissingFailures(present, b)
    decreases |a|
  {
    if |a| == 0 {
      assert a + b == b;
    } else {
      assert (a + b)[0] == a[0];
      assert (a + b)[1..] == a[1..] + b;
      MissingFailuresAppend(present, a[1..], b);
    }
  }

  lemma {:induction false} NoneMissing(present: set<Path>, targets: seq<Path>)
    requires forall i :: 0 <= i < |targets| ==> targets[i] in present
    ensures MissingFailures(present, targets) == []
    decreases |targets|
  {
    if |targets| > 0 {
      NoneMissing(present, targets[1..]);
    }
  }

  lemma OnlyOneMissing(present: set<Path>, targets: seq<Path>, i: nat)
    requires i < |targets| && targets[i] !in present
    requires forall j :: 0 <= j < |targets| && j != i ==> targets[j] in present
    ensures MissingFailures(present, targets) == [Failure(targets[i], NotFoundMessage(targets[i]))]
  {
    var a, m, b := targets[..i], targets[i], targets[i + 1..];
    assert targets == a + [m] + b;
    MissingFailuresAppend(present, a + [m], b);
    MissingFailuresAppend(present, a, [m]);
    NoneMissing(present, a);
    NoneMissing(present, b);
    assert MissingFailures(present, [m]) == [Failure(m, NotFoundMessage(m))] + MissingFailures(present, []);
  }

  /** With library calls that never fail, the loop fails exactly on the
      missing targets, each with the not-found error, in input order, and
      every other target is a success. */
  lemma {:induction false} ReliableRunFailsOnlyMissing(c: Codec, heif: bool, gps: Group, fs: FileSystem, targets: seq<Path>)
    requires Reliable(c, heif)
    ensures Run(WriteStep(c, heif, gps), fs, targets).failed == MissingFailures(fs.Keys, targets)
    ensures Run(WriteStep(c, heif, gps), fs, targets).successCount == |targets| - |MissingFailures(fs.Keys, targets)|
    decreases |targets|
  {
    if |targets| > 0 {
      var t := targets[0];
      assert WriteStep(c, heif, gps)(fs, t) == WriteTarget(c, heif, gps, fs, t);
      ReliableWriteSucceeds(c, heif, gps, fs, t);
      match WriteTarget(c, heif, gps, fs, t)
      case Ok(fs') =>
        assert fs'.Keys == fs.Keys;
        ReliableRunFailsOnlyMissing(c, heif, gps, fs', targets[1..]);
      case Err(_) =>
        ReliableRunFailsOnlyMissing(c, heif, gps, fs, targets[1..]);
    }
  }

  // ---------------------------------------------------------------------
  // The whole call
  // ---------------------------------------------------------------------

  /** Step 1 of the call: the three ways it ends before any target, or the
      non-empty GPS group it goes on with. */
  function PrepareSource(c: Codec, heif: bool, fs: FileSystem, source: Path): (s: SourceStage)
    ensures s.HeifUnsupported? <==> IsHeic(source) && !heif
    ensures s.LoadFailed? <==> !(IsHeic(source) && !heif) && LoadTags(c, heif, fs, source).Err?
    ensures s.LoadFailed? ==> s.error == LoadTags(c, heif, fs, source).error
    ensures s.NoGps? <==> !(IsHeic(source) && !heif) && LoadTags(c, heif, fs, source).Ok? && !HasGps(LoadTags(c, heif, fs, source).value)
    ensures s.Ready? ==> LoadTags(c, heif, fs, source).Ok? && s.gps == LoadTags(c, heif, fs, source).value.gps && |s.gps| > 0
  {
    if IsHeic(source) && !heif then HeifUnsupported
    else
      match LoadTags(c, heif, fs, source)
      case Err(e) => LoadFailed(e)
      case Ok(tags) => if HasGps(tags) then Ready(tags.gps) else NoGps
  }

  /** `transfer_gps_data(source_path, target_paths)` with the module-level
      `HEIF_SUPPORTED` as the parameter `heif`. */
  function Transfer(c: Codec, heif: bool, fs: FileSystem, source: Path, targets: seq<Path>): (o: Outcome)
    ensures IsHeic(source) && !heif ==> o == Outcome(BatchResult(0, [], HeicUnsupportedMessage), fs)
    ensures PrepareSource(c, heif, fs, source).LoadFailed? ==>
      o == Outcome(BatchResult(0, [], SourceErrorPrefix + PrepareSource(c, heif, fs, source).error), fs)
    ensures PrepareSource(c, heif, fs, source).NoGps? ==> o == Outcome(BatchResult(0, [], NoGpsMessage), fs)
    ensures PrepareSource(c, heif, fs, source).Ready? ==>
      && o.result.successCount + |o.result.failed| == |targets|
      && IsSubsequence(FilesOf(o.result.failed), targets)
      && o.result.message == Summary(o.result.successCount, |targets|, |o.result.failed|)
    ensures o.files.Keys == fs.Keys
    ensures forall p :: p in fs && p !in targets ==> o.files[p] == fs[p]
  {
    match PrepareSource(c, heif, fs, source)
    case HeifUnsupported => Outcome(BatchResult(0, [], HeicUnsupportedMessage), fs)
    case LoadFailed(e) => Outcome(BatchResult(0, [], SourceErrorPrefix + e), fs)
    case NoGps => Outcome(BatchResult(0, [], NoGpsMessage), fs)
    case Ready(gps) =>
      var run := Run(WriteStep(c, heif, gps), fs, targets);
      RunTouchesOnlyTargets(c, heif, gps, fs, targets);
      RunFailuresInOrder(WriteStep(c, heif, gps), fs, targets);
      Outcome(BatchResult(run.successCount, run.failed, Summary(run.successCount, |targets|, |run.failed|)), run.files)
  }

  /** The source's `for` loop: count each success, append each failure,
      target by target. */
  method RunLoop(step: Step, fs: FileSystem, targets: seq<Path>) returns (p: Progress)
    ensures p == Run(step, fs, targets)
  {
    var successCount: nat := 0;
    var failed: seq<Failure> := [];
    var files := fs;
    for i := 0 to |targets|
      invariant Run(step, fs, targets[..i]) == Progress(successCount, failed, files)
    {
      RunStep(step, fs, targets, i);
      match step(files, targets[i])
      case Ok(fs') =>
        successCount := successCount + 1;
        files := fs';
      case Err(e) =>
        failed := failed + [Failure(targets[i], e)];
    }
    assert targets[..|targets|] == targets;
    p := Progress(successCount, failed, files);
  }

  /** The same call written as the source writes it: the early exits, then
      the loop, then the summary. */
  method TransferGpsData(c: Codec, heif: bool, fs: FileSystem, source: Path, targets: seq<Path>)
    returns (result: BatchResult, files: FileSystem)
    ensures Outcome(result, files) == Transfer(c, heif, fs, source, targets)
  {
    files := fs;
    match PrepareSource(c, heif, fs, source)
    case HeifUnsupported =>
      result := BatchResult(0, [], HeicUnsupportedMessage);
    case LoadFailed(e) =>
      result := BatchResult(0, [], SourceErrorPrefix + e);
    case NoGps =>
      result := BatchResult(0, [], NoGpsMessage);
    case Ready(gps) =>
      var run := RunLoop(WriteStep(c, heif, gps), fs, targets);
      files := run.files;
      result := BatchResult(run.successCount, run.failed, Summary(run.successCount, |targets|, |run.failed|));
  }

  /** When the call stops at the source, the targets play no part: the same
      result comes back whatever they are, and no file changes. */
  lemma EarlyExitIgnoresTargets(c: Codec, heif: bool, fs: FileSystem, source: Path, t1: seq<Path>, t2: seq<Path>)
    requires !PrepareSource(c, heif, fs, source).Ready?
    ensures Transfer(c, heif, fs, source, t1) == Transfer(c, heif, fs, source, t2)
    ensures Transfer(c, heif, fs, source, t1).files == fs
    ensures Transfer(c, heif, fs, source, t1).result.successCount == 0
    ensures Transfer(c, heif, fs, source, t1).result.failed == []
  {
  }

  /** A missing source ends the call with the not-found error in the
      message, whatever the HEIF support, unless the HEIF check stops it
      first. */
  lemma MissingSourceReported(c: Codec, heif: bool, fs: FileSystem, source: Path, targets: seq<Path>)
    requires source !in fs && !(IsHeic(source) && !heif)
    ensures Transfer(c, heif, fs, source, targets).result.message == SourceErrorPrefix + NotFoundMessage(source)
  {
  }

  /** Once the source is ready, the message says whether every target, some
      targets or none was written. */
  lemma {:induction false} MessageMatchesCounts(c: Codec, heif: bool, fs: FileSystem, source: Path, targets: seq<Path>)
    requires PrepareSource(c, heif, fs, source).Ready?
    ensures var r := Transfer(c, heif, fs, source, targets).result;
            && (StartsWith(r.message, AllSucceededPrefix) <==> r.failed == [])
            && (StartsWith(r.message, PartialPrefix) <==> r.successCount > 0 && r.failed != [])
            && (r.message == NothingProcessedMessage <==> r.successCount == 0 && r.failed != [])
  {
    var r := Transfer(c, heif, fs, source, targets).result;
    assert r.successCount + |r.failed| == |targets|;
    assert r.message == Summary(r.successCount, r.successCount + |r.failed|, |r.failed|);
    SummaryCases(r.successCount, |r.failed|);
    assert r.failed == [] <==> |r.failed| == 0;
  }

  /** When the codec keeps the GPS group through a round trip, after a call
      every file that changed is a target and reads back with the source's
      GPS group. */
  lemma {:induction false} TransferWritesSourceGps(c: Codec, heif: bool, fs: FileSystem, source: Path, targets: seq<Path>, p: Path)
    requires GpsRoundTrips(c)
    requires p in fs && Transfer(c, heif, fs, source, targets).files[p] != fs[p]
    ensures p in targets
    ensures PrepareSource(c, heif, fs, source).Ready?
    ensures LoadTags(c, heif, Transfer(c, heif, fs, source, targets).files, p).Ok?
    ensures LoadTags(c, heif, Transfer(c, heif, fs, source, targets).files, p).value.gps == LoadTags(c, heif, fs, source).value.gps
  {
    var stage := PrepareSource(c, heif, fs, source);
    RunTouchesOnlyTargets(c, heif, stage.gps, fs, targets);
    ChangedFilesCarryGps(c, heif, stage.gps, fs, targets, p);
  }

  /** With library calls that never fail and a source that has GPS data,
      the call fails exactly on the missing targets, counts every other
      target as a success, and summarises those counts. */
  lemma ReliableTransfer(c: Codec, heif: bool, fs: FileSystem, source: Path, targets: seq<Path>)
    requires Reliable(c, heif) && PrepareSource(c, heif, fs, source).Ready?
    ensures var missing := MissingFailures(fs.Keys, targets);
            Transfer(c, heif, fs, source, targets).result ==
              BatchResult(|targets| - |missing|, missing, Summary(|targets| - |missing|, |targets|, |missing|))
  {
    ReliableRunFailsOnlyMissing(c, heif, PrepareSource(c, heif, fs, source).gps, fs, targets);
  }

  /** The result of a batch in which only `targets[i]` failed, because its
      file is missing: every other target is a success, and the message is
      "Processed n/m files (1 failed)", or "Failed to process any files" when
      it was the only target. */
  ghost predicate OnlyMissingFailed(r: BatchResult, targets: seq<Path>, i: nat)
    requires i < |targets|
  {
    && r.successCount == |targets| - 1
    && r.failed == [Failure(targets[i], NotFoundMessage(targets[i]))]
    && (|targets| > 1 ==>
          r.message == PartialPrefix + Decimal(|targets| - 1) + "/" + Decimal(|targets|) + " files (1 failed)")
    && (|targets| == 1 ==> r.message == NothingProcessedMessage)
  }

  /** One missing target among existing ones, with library calls that never
      fail: that target is the only failure, every other one is a success,
      and the message reports the partial count out of the total. */
  lemma OneMissingTarget(c: Codec, heif: bool, fs: FileSystem, source: Path, targets: seq<Path>, i: nat)
    requires Reliable(c, heif) && PrepareSource(c, heif, fs, source).Ready?
    requires i < |targets| && targets[i] !in fs
    requires forall j :: 0 <= j < |targets| && j != i ==> targets[j] in fs
    ensures OnlyMissingFailed(Transfer(c, heif, fs, source, targets).result, targets, i)
  {
    ReliableTransfer(c, heif, fs, source, targets);
    OneMissingResult(Transfer(c, heif, fs, source, targets).result, fs, targets, i);
  }

  /** The result the reliable call gives when only `targets[i]` is
      missing. */
  lemma OneMissingResult(r: BatchResult, fs: FileSystem, targets: seq<Path>, i: nat)
    requires i < |targets| && targets[i] !in fs
    requires forall j :: 0 <= j < |targets| && j != i ==> targets[j] in fs
    requires var missing := MissingFailures(fs.Keys, targets);
             r == BatchResult(|targets| - |missing|, missing, Summary(|targets| - |missing|, |targets|, |missing|))
    ensures OnlyMissingFailed(r, targets, i)
  {
    OnlyOneMissing(fs.Keys, targets, i);
    OneFailedSummary(|targets| - 1);
  }
}

=== FILE: wrappers.dfy ===
/** Failure-compatible wrappers: the library calls of the GPS transfer engine
    either return a value or raise an exception, whose text is all the engine
    keeps of it. */
module Wrappers {

  /** A value that may be absent (Python's `None`). */
  datatype Option<+T> = None | Some(value: T)

  /** The outcome of a call that may raise: `Err` carries `str(exception)`. */
  datatype Result<+T> = Ok(value: T) | Err(error: string) {

    predicate IsFailure() {
      Err?
    }

    function PropagateFailure<U>(): Result<U>
      requires Err?
    {
      Err(error)
    }

    function Extract(): T
      requires Ok?
    {
      value
    }
  }
}
